=== FILE: README.md ===
# metrics-collector in Dafny

A model of the core of the metrics-collector server and agent:

- the in-memory metric store (gauges are float64 values that are replaced, counters are int64 values that are saved absolutely);
- the service that parses a textual value and dispatches on the case-insensitive type name;
- the decisions of the HTTP handlers (the status code, the store after the request, the value returned);
- the HMAC-SHA256 signing and checking of a sample;
- the agent's conversion of a statistics record into signed samples, and its PollCount counter.

The model is purely functional. The store is a value that every handler takes and returns. The
listing handler's write through the aliased map (`PollCount` set to 24) is therefore visible as
a changed store. Go's pointers in `model.Metrics` are `Option`s. A nil dereference is a panic
outcome (`Go.Panics`, `Status.Panicked`). A handler's status is the first one it writes, as in
`net/http`.

The parts of the Go library the core leans on are modelled exactly:
- `strconv.ParseInt(s, 10, 64)` with its syntax and range errors, and `strconv.FormatInt`;
- `encoding/hex` encoding and decoding;
- int64 wrap-around on `+=` and `++`;
- `strings.ToLower` as far as the comparisons with `"gauge"` and `"counter"` can observe.

Three things are parameters rather than definitions: float parsing and printing (the
`FloatFormat` record), and the HMAC (the `Mac` function of key and message).

Modules, bottom-up: `Wrappers`, `GoInt`, `Strconv`, `Hex`, `Floats`, `Metric`, `Storage`,
`Service`, `Integrity`, `Api`, `Agent`.

The batch handler is modelled as the code behaves:
- It returns after the first sample that updates successfully. The agent posts its whole report
  as one batch (cmd/agent/main.go:90-96, 149-157), so every sample is evidently meant to be
  applied. The batch is listed under Findings, with a corrected handler beside the as-written one.
- A sample whose update fails in the service does not end the loop. Its status is written, and the
  next sample is tried. A sample that fails the signature check, or has an unknown type, does end
  the request.

## Model

| member | source | states |
|---|---|---|
| Storage.NewStorage | model/storage.go:26-28 | a new store holds no gauge and no counter: every lookup reports zero and not found |
| Storage.GetGauge | model/storage.go:16-19 | found exactly when the name was saved; then the saved value, otherwise zero |
| Storage.GetCounter | model/storage.go:21-24 | found exactly when the name was saved; then the saved value, otherwise zero |
| Storage.SaveGauge | model/storage.go:8-10 | afterwards the name reads back the value; every other gauge and every counter is unchanged; the gauge names grow by exactly this name |
| Storage.SaveCounter | model/storage.go:12-14 | afterwards the name reads back the value (absolute, not added); every other counter and every gauge is unchanged; the counter names grow by exactly this name |
| Storage.GetAll | internal/storage/storage.go:30-32 | the whole store is returned: every lookup in it agrees with the store |
| Storage.GaugeLastWriteWins | internal/storage/storage.go:12-14 | two gauge saves to one name leave the second value, and are equal to the second save alone |
| Storage.SaveCounterIsAbsolute | internal/storage/storage.go:16-18 | a counter save discards the previous value: two saves equal the second save alone |
| Storage.KeysOnlyGrow | model/storage.go:3-14 | no sequence of saves removes a name, and every saved name is present afterwards |
| GoInt.Add | internal/service/service.go:62-63 | the int64 `+=`: congruent to the true sum modulo 2^64, equal to it when it fits, off by exactly 2^64 otherwise |
| GoInt.AddAssociative | internal/service/service.go:62-64 | wrapping addition is associative: how counter deltas are grouped does not change the total |
| GoInt.AddCommutative | internal/service/service.go:62-63 | wrapping addition is commutative |
| GoInt.AddOrderIrrelevant | internal/service/service.go:62-64 | two deltas added to a counter in either order leave the same total |
| Strconv.ScanUint | internal/service/service.go:58 | the digit scan succeeds exactly when every character is a digit and the value is at most 2^64-1; the result is the decimal value; a string of digits fails only with the range error |
| Strconv.ParseInt | internal/service/service.go:58-61 | succeeds exactly on an optionally signed decimal whose value fits int64, returning that value; a decimal outside int64 is a range error |
| Strconv.FormatUnsigned | internal/api/api.go:134 | digits only, no leading zero unless the number is 0, and they denote the number |
| Strconv.FormatInt | internal/api/api.go:134 | a decimal denoting the number, with no '+', and with a '-' exactly when it is negative |
| Strconv.FormatParseRoundTrip | internal/api/api.go:133-134 | parsing the decimal text of any int64 gives it back, so the JSON handlers hand the service exactly the delta they received |
| Strconv.ParseFormatCanonical | internal/service/service.go:58 | a text that parses and is in canonical form is the formatting of its value |
| Strconv.ParseIntRejectsFraction | internal/service/service_test.go:56-65 | "63.243" is not an integer: a syntax error |
| Hex.EncodeToString | internal/api/api.go:371 | two characters per byte, all lower-case hexadecimal digits |
| Hex.DecodeString | internal/api/api.go:348-351 | fails exactly when the length is odd or a character is not a hexadecimal digit; otherwise one byte per two characters |
| Hex.DecodeEncode | internal/api/api.go:348-352 | decoding the encoding of any bytes gives the bytes back, so a signature written by `hash` decodes in `verifyHash` |
| Hex.EncodeDecode | internal/api/api.go:348-351 | lower-case hexadecimal text of even length is the encoding of what it decodes to |
| Metric.KindOfIgnoresCase | internal/service/service.go:49 | the type dispatch ignores case: a name and its lower-case form select the same kind |
| Metric.Select | internal/api/api.go:337-344 | the switch on the type with the pointer dereference: no case exactly for an unknown type, a value exactly when the type's pointer is set |
| Service.Update | internal/service/service.go:48-69 | unknown type: TypeError. Gauge: succeeds exactly when the text parses, storing the parsed value. Counter: succeeds exactly for an int64 decimal, storing the old value plus it, wrapped. Any error leaves the store unchanged; a success touches only the named entry |
| Service.GetGauge | internal/service/service.go:27-34 | the stored value without error when present; zero and "metric not exist" otherwise |
| Service.GetCounter | internal/service/service.go:36-42 | the stored value without error when present; zero and "metric not exist" otherwise |
| Service.GetStorage | internal/service/service.go:44-46 | the service hands out its whole store: every lookup in the result agrees with the service's state |
| Service.Ping | internal/service/service.go:71-73 | the in-memory service always reports no error |
| Service.GaugeLastWriteWins | internal/service/service.go:50-56 | two successful gauge updates leave the second parsed value |
| Service.CounterAccumulates | internal/service/service.go:57-65 | two counter updates on a new name leave the wrapped sum of the deltas, the plain sum when it fits |
| Service.PollCountScenario | internal/service/service.go:57-65 | three updates of counter PollCount by "1" from an empty store leave 3 |
| Service.ErrorScenarios | internal/service/service_test.go:36-75 | "histogram" is a TypeError, "63.243" as a counter a syntax error, "65 + 23i" as a gauge a parse error; none changes the store |
| Service.NeverSetIsNotFound | internal/service/service_test.go:144-153 | a name never set is zero and "metric not exist", as gauge and as counter |
| Integrity.Message | internal/api/api.go:337-341 | the text to sign ("<id>:gauge:<%f>" or "<id>:counter:<%d>") exists exactly when the type is known and its pointer is set; an unknown type has none, and a known type without its pointer is a nil dereference |
| Integrity.Hash | internal/api/api.go:359-372 | panics exactly on a nil pointer; an unknown type is left alone; otherwise only the hash changes, to the hex of the HMAC of the message under the key |
| Integrity.VerifyHash | internal/api/api.go:335-357 | accepts exactly a metric of known type whose hash decodes to the HMAC of its message; panics exactly on a nil pointer; an unknown type or a non-hex hash is a bad request |
| Integrity.SignThenVerify | internal/api/api.go:335-372 | a metric signed with a key verifies under that key |
| Integrity.TamperedSignatureRejected | internal/api/api.go:348-356 | a hash encoding bytes other than the message's HMAC is rejected |
| Integrity.WrongKeyRejected | internal/api/api.go:345-356 | a metric signed under one key is rejected under a key whose HMAC of the message differs |
| Api.UpdateHandle | internal/api/api.go:55-74 | 501 exactly for an unknown type, 200 exactly when the service update succeeds, otherwise 400; the store is the one the service update leaves, so it changes only on 200 |
| Api.CounterUpdateThenRead | internal/api/api.go:55-103 | a counter delta posted in decimal is answered 200, and a later read parses back to the old value plus the delta, wrapped |
| Api.GaugeUpdateThenRead | internal/api/api.go:55-103 | a gauge value that parses is answered 200, and a later read answers 200 with the %v text of the parsed value |
| Api.GetValueHandle | internal/api/api.go:76-103 | 404 exactly when the type is unknown or the name is absent from that kind's map; a gauge is written in %v form; a counter's body parses back to the stored delta |
| Api.JsonUpdateHandle | internal/api/api.go:105-155 | 415 unless JSON; 400 for an undecodable body; an unknown type is 501 unkeyed and 400 keyed (the signature check rejects it first); with a key set, a sample whose signature check fails is 400 and applies nothing; a panic only for a metric missing its type's pointer; the store changes only on 200 |
| Api.JsonUpdateApplies | internal/api/api.go:129-155 | an authenticated metric with its pointer set is answered 200, and its gauge value is stored, or its delta added to the counter, exactly as sent: the detour through text loses nothing |
| Api.GetJsonValueHandle | internal/api/api.go:157-207 | a decoded JSON request is answered 200 or 404, and 404 exactly when the type is unknown or the name is absent from that kind's map; a 200 reply carries the requested ID and type with the stored value or delta; a non-JSON request is 415 and an undecodable body 400 |
| Api.SignIfKeyed | internal/api/api.go:179-181 | the metric is left as it is without a key, and signing never changes anything but the hash |
| Api.ServedValueVerifies | internal/api/api.go:189-196 | a value the server returns with a key configured passes the server's own signature check |
| Api.UpdatesHandle | internal/api/api.go:209-223 | 415 unless JSON, 400 for an undecodable body, an empty batch a bare 200; all without touching the store |
| Api.UpdatesLoop | internal/api/api.go:225-260 | the loop as written, whose return after the first successful update the batch lemmas below state: once a status has been written it is the final one (the first WriteHeader wins); an exhausted batch answers the written status or a bare 200; a panic leaves the store as it was |
| Api.ForgedFirstSampleRejected | internal/api/api.go:226-231 | with a key set, a first sample whose signature check fails ends the request with 400, or the status already sent, and applies nothing |
| Api.BatchAppliesAtMostOne | internal/api/api.go:225-260 | as written, a batch changes the store by at most one sample, and that sample passed the signature check |
| Api.BatchStopsAfterFirst | internal/api/api.go:243-247 | as written, when the first sample is authentic and complete the result is 200 with only that sample applied |
| Api.BatchDropsSecondSample | internal/api/api.go:243-247 | as written, the batch [a:+1, b:+2] answers 200 but leaves b absent |
| Api.UpdatesHandleAll | internal/api/api.go:209-223 | the corrected handler keeps the same 415, 400 and empty-batch answers |
| Api.BatchAppliesEvery | internal/api/api.go:225-260 | corrected: a batch of authentic, complete samples is answered 200 and applies every sample in order |
| Api.CorrectedBatchKeepsSecondSample | internal/api/api.go:225-260 | corrected: the batch [a:+1, b:+2] leaves both a and b stored |
| Api.ListHandle | internal/api/api.go:263-265 | the listing answers 200 and leaves counter PollCount at 24 in the live store, everything else unchanged |
| Api.ListingOverwritesPollCount | internal/service/service.go:44-46 | since the service hands out the store itself, a later read of counter PollCount gives "24" |
| Api.PingHandle | internal/api/api.go:280-288 | the in-memory service's ping is 200 |
| Agent.ToMetric | cmd/agent/main.go:104-124 | a float64 field becomes a sample carrying only a value, an int64 field one carrying only a delta; the ID is the field name and the type is the field's type name; other fields give none |
| Agent.Sign | cmd/agent/main.go:126-128 | with an empty hash-key argument the sample is returned unchanged; otherwise `hash` runs with the global configured key, not the argument: it panics exactly on a nil pointer, leaves an unknown type unchanged, and gives a sample with its pointer set a hash that decodes to the HMAC of its message under that key; nothing but the hash changes |
| Agent.Numeric | cmd/agent/main.go:104-124 | the samples come from exactly the float64 and int64 fields: every numeric field is kept and no other kind is |
| Agent.NumericAppend | cmd/agent/main.go:102-130 | the filter keeps field order: the numeric part of a concatenation is the concatenation of the numeric parts |
| Agent.PrepareMetricsArray | cmd/agent/main.go:101-132 | the loop appends exactly the samples of the numeric fields, in field order, to the given array, and panics exactly when one of them does |
| Agent.PreparedShape | cmd/agent/main.go:101-132 | one sample per float64 or int64 field, in order, each the signed conversion of its field; no panic when unsigned or when every field's type name matches its kind |
| Agent.AgentSamplesVerify | cmd/agent/main.go:216-229 | every sample the agent signs passes the server's verifyHash under the configured key |
| Agent.Scrape | cmd/agent/main.go:202 | PollCount goes up by one per scrape, wrapping to the int64 minimum after the maximum |
| Agent.PollCountCountsScrapes | cmd/agent/main.go:61-67 | from the zero record, PollCount equals the number of scrapes performed (until it would overflow) |
| Agent.Fields | cmd/agent/main.go:101-104 | the record's fields in declaration order: the gauges declared before PollCount, PollCount as a Counter, the gauges after it; all numeric and consistently typed |
| Agent.ReportHasPollCount | cmd/agent/main.go:101-132 | the prepared report never panics and has one sample per field; the sample at PollCount's position is counter PollCount with its current value, and every other sample is a gauge |
| Agent.ReportCarriesPollCount | cmd/agent/main.go:61-67 | after n scrapes from zero, the sample at PollCount's position carries delta n |

## Left out

- internal/service/file_service.go and internal/service/db_service.go: persistence to a file and to PostgreSQL is I/O.
- cmd/server/main.go: flag and environment parsing and server start-up are I/O.
- HTTP plumbing is not modelled: routing, the gzip middleware, reading headers and bodies, JSON encoding and decoding, and the texts of error messages. A handler receives the parsed Content-Type and the decoded body (`None` when decoding fails).
- getMetricsHandle's HTML template is not modelled; only its status and its write to the store are.
- Float parsing and printing (ParseFloat, FormatFloat with 'f' and -1, %f, %v) are a parameter record, because floating-point text conversion is not modelled bit by bit. `Floats.ShortestRoundTrips` states the one property used: shortest printing reads back for finite values.
- HMAC-SHA256 is a parameter function. `hmac.Equal`'s constant-time comparison is modelled as equality of byte strings.
- Concurrency is not modelled: the agent's goroutines, tickers and channels, and the server's concurrent handlers. The store has no locking in the code and is modelled sequentially.
- The agent's reading of runtime.MemStats, gopsutil and rand, extraScrape, and the sending of metrics are I/O. A scrape receives its gauge readings as a parameter.
- Agent.Fields: the declaration of model.MetricsList is not part of this model. So which gauges are declared before PollCount and which after is a parameter of the record, and the report lemmas hold for every split.
- Metric.ToLower: ASCII only. The only results compared are "gauge" and "counter", and no non-ASCII character lower-cases to one of their letters, so every dispatch agrees with Go's.
- model.GaugeType and model.CounterType are not part of this model. They are taken to be "gauge" and "counter", the names the tests and the agent use.
- Service.GetStorage and Storage.GetAll return the store itself; the aliasing this creates is modelled through Api.ListHandle.
- Panics are outcomes of the model. `net/http`'s recovery and the connection it drops are not modelled.
- Strconv.ParseInt: only the kind of `*NumError` (syntax or range) is kept, not its Func or Num fields.
- Api.GetJsonValueHandle: a stored NaN or infinite gauge (ParseFloat accepts "NaN" and "Inf") makes Go's JSON encoder fail after the 200 header, so the body is empty; the model returns the metric, because JSON encoding is not modelled.
- Api.GetValueHandle: the gauge body is the %v formatting parameter applied to the stored value; which text that is, is not stated.

## Findings

| source | as written | input that shows it | evidently intended | confidence | as-written member | corrected member |
|---|---|---|---|---|---|---|
| internal/api/api.go:243-247 | after the first sample whose update succeeds, the handler writes 200 and returns, so the rest of the batch is never applied | a batch of counters a with delta 1 and b with delta 2, no key: the reply is 200, a is 1 and b is absent | every sample of the batch is applied in order before 200 is written | high; not executed | Api.BatchDropsSecondSample | Api.BatchAppliesEvery |

=== FILE: agent.dfy ===
/**
  The agent side of cmd/agent/main.go: the poll counter that `scrape` advances and the samples
  `prepareMetricsArray` builds, by reflection, from the fields of the collected structs. The
  reflection is modelled as the explicit list of fields it visits.
 */
module Agent {
  import opened Wrappers
  import opened GoInt
  import opened Floats
  import opened Metric
  import opened Integrity
  import Hex

  /** What reflection finds in a field: a float64 kind, an int64 kind, or any other kind. */
  datatype FieldValue = FloatField(f: Float64) | IntField(i: Int64) | OtherField

  /** One struct field: its name, the name of its declared type ("Gauge", "Counter", ...) and its value. */
  datatype Field = Field(name: string, typeName: string, value: FieldValue)

  /**
    The record built for one field: a float64 field gives a sample with `Value` set and `Delta`
    nil, an int64 field the reverse; the ID is the field name and the type is the field's type
    name. Fields of other kinds give none.
   */
  function ToMetric(fd: Field): (r: Option<Metrics>)
    ensures r.Some? <==> !fd.value.OtherField?
    ensures r.Some? ==> r.value.id == fd.name && r.value.mtype == fd.typeName && r.value.hash == ""
    ensures r.Some? ==> (r.value.value.Some? <==> fd.value.FloatField?) && (r.value.delta.Some? <==> fd.value.IntField?)
    ensures fd.value.FloatField? ==> r.value.value == Some(fd.value.f)
    ensures fd.value.IntField? ==> r.value.delta == Some(fd.value.i)
  {
    match fd.value
    case FloatField(v) => Some(Metrics(fd.name, fd.typeName, None, Some(v), ""))
    case IntField(d) => Some(Metrics(fd.name, fd.typeName, Some(d), None, ""))
    case OtherField => None
  }

  /**
    `if hashKey != "" { hash(&metric, cfg.Key) }`: whether to sign is decided by the parameter,
    but the key signed with is the global configuration's.
   */
  function Sign(m: Metrics, hashKey: string, cfgKey: string, f: FloatFormat, mac: Mac): (r: Go<Metrics>)
    ensures r.Returns? ==> r.value.(hash := m.hash) == m
    ensures hashKey == "" ==> r == Returns(m)
    ensures hashKey != "" && HasPayload(m) ==>
      r.Returns? && Hex.DecodeString(r.value.hash) == Some(mac(cfgKey, Message(m, f).v))
    ensures r.Panics? <==> hashKey != "" && Message(m, f).NilPointer?
    ensures KindOf(m.mtype) == UnknownKind ==> r == Returns(m)
  {
    if hashKey != "" then Hash(m, cfgKey, f, mac) else Returns(m)
  }

  /** The fields of float64 or int64 kind, in field order. */
  function Numeric(fields: seq<Field>): (r: seq<Field>)
    ensures |r| <= |fields|
    ensures forall j :: 0 <= j < |r| ==> r[j] in fields && !r[j].value.OtherField?
    ensures forall j :: 0 <= j < |fields| && !fields[j].value.OtherField? ==> fields[j] in r
    decreases |fields|
  {
    if fields == [] then []
    else
      var last := fields[|fields| - 1];
      Numeric(fields[..|fields| - 1]) + (if last.value.OtherField? then [] else [last])
  }

  /** Filtering keeps field order: the numeric part of a concatenation is the concatenation of the parts. */
  lemma {:induction false} NumericAppend(a: seq<Field>, b: seq<Field>)
    ensures Numeric(a + b) == Numeric(a) + Numeric(b)
    decreases |b|
  {
    if b != [] {
      var init := b[..|b| - 1];
      assert (a + b)[..|a + b| - 1] == a + init;
      assert (a + b)[|a + b| - 1] == b[|b| - 1];
      NumericAppend(a, init);
    } else {
      assert a + b == a;
    }
  }

  /** The samples the given fields yield, in field order, or a panic if signing one dereferences nil. */
  function Prepared(fields: seq<Field>, hashKey: string, cfgKey: string, f: FloatFormat, mac: Mac): Go<seq<Metrics>>
    decreases |fields|
  {
    if fields == [] then Returns([])
    else
      var last := fields[|fields| - 1];
      match Prepared(fields[..|fields| - 1], hashKey, cfgKey, f, mac)
      case Panics => Panics
      case Returns(done) =>
        match ToMetric(last)
        case None => Returns(done)
        case Some(m) =>
          match Sign(m, hashKey, cfgKey, f, mac)
          case Panics => Panics
          case Returns(signed) => Returns(done + [signed])
  }

  /** A panic while preparing a prefix of the fields is a panic for all of them. */
  lemma {:induction false} PanicPersists(fields: seq<Field>, k: nat, hashKey: string, cfgKey: string, f: FloatFormat, mac: Mac)
    requires k <= |fields|
    requires Prepared(fields[..k], hashKey, cfgKey, f, mac).Panics?
    ensures Prepared(fields, hashKey, cfgKey, f, mac).Panics?
    decreases |fields| - k
  {
    if k < |fields| {
      var prefix := fields[..|fields| - 1];
      assert prefix[..k] == fields[..k];
      PanicPersists(prefix, k, hashKey, cfgKey, f, mac);
    } else {
      assert fields[..k] == fields;
    }
  }

  /**
    prepareMetricsArray: appends to `acc` one sample per float64 or int64 field, in field order,
    signing each when `hashKey` is not empty; it panics when a signature dereferences a nil
    pointer.
   */
  method PrepareMetricsArray(acc: seq<Metrics>, fields: seq<Field>, hashKey: string, cfgKey: string, f: FloatFormat, mac: Mac)
    returns (r: Go<seq<Metrics>>)
    ensures Prepared(fields, hashKey, cfgKey, f, mac).Panics? ==> r.Panics?
    ensures Prepared(fields, hashKey, cfgKey, f, mac).Returns? ==> r == Returns(acc + Prepared(fields, hashKey, cfgKey, f, mac).value)
  {
    var arr := acc;
    var i := 0;
    while i < |fields|
      invariant 0 <= i <= |fields|
      invariant Prepared(fields[..i], hashKey, cfgKey, f, mac).Returns?
      invariant arr == acc + Prepared(fields[..i], hashKey, cfgKey, f, mac).value
    {
      var fd := fields[i];
      assert fields[..i + 1][..i] == fields[..i];
      assert fields[..i + 1][i] == fd;
      var metric := ToMetric(fd);
      if metric.Some? {
        var signed := Sign(metric.value, hashKey, cfgKey, f, mac);
        if signed.Panics? {
          PanicPersists(fields, i + 1, hashKey, cfgKey, f, mac);
          return Panics;
        }
        arr := arr + [signed.value];
      }
      i := i + 1;
    }
    assert fields[..i] == fields;
    r := Returns(arr);
  }

  /** The field's kind agrees with its type name, so signing it finds the pointer it reads. */
  predicate Consistent(fd: Field) {
    && (fd.value.FloatField? ==> KindOf(fd.typeName) != CounterKind)
    && (fd.value.IntField? ==> KindOf(fd.typeName) != GaugeKind)
  }

  /**
    The samples are the float64 and int64 fields, one each and in field order, signed (with the
    global key) when `hashKey` is set; preparation cannot panic unsigned or over consistent
    fields.
   */
  lemma {:induction false} PreparedShape(fields: seq<Field>, hashKey: string, cfgKey: string, f: FloatFormat, mac: Mac)
    ensures (hashKey == "" || forall j :: 0 <= j < |fields| ==> Consistent(fields[j])) ==>
      Prepared(fields, hashKey, cfgKey, f, mac).Returns?
    ensures var p := Prepared(fields, hashKey, cfgKey, f, mac);
            p.Returns? ==>
              && |p.value| == |Numeric(fields)|
              && forall j :: 0 <= j < |p.value| ==>
                   Sign(ToMetric(Numeric(fields)[j]).value, hashKey, cfgKey, f, mac) == Returns(p.value[j])
    decreases |fields|
  {
    if fields != [] {
      var prefix := fields[..|fields| - 1];
      var last := fields[|fields| - 1];
      assert forall j :: 0 <= j < |prefix| ==> prefix[j] == fields[j];
      PreparedShape(prefix, hashKey, cfgKey, f, mac);
      var m := ToMetric(last);
      if m.Some? && Consistent(last) {
        assert !Message(m.value, f).NilPointer?;
      }
    }
  }

  /**
    Every sample the agent signs passes the server's verifyHash under the agent's configured
    key (the agent's `hash` is the same code as the server's).
   */
  lemma AgentSamplesVerify(fields: seq<Field>, hashKey: string, cfgKey: string, f: FloatFormat, mac: Mac, j: nat)
    requires hashKey != ""
    requires Prepared(fields, hashKey, cfgKey, f, mac).Returns?
    requires j < |Prepared(fields, hashKey, cfgKey, f, mac).value|
    requires KindOf(Prepared(fields, hashKey, cfgKey, f, mac).value[j].mtype) != UnknownKind
    ensures VerifyHash(Prepared(fields, hashKey, cfgKey, f, mac).value[j], cfgKey, f, mac) == Verified
  {
    PreparedShape(fields, hashKey, cfgKey, f, mac);
    var m := ToMetric(Numeric(fields)[j]).value;
    var signed := Prepared(fields, hashKey, cfgKey, f, mac).value[j];
    assert Hash(m, cfgKey, f, mac) == Returns(signed);
    assert signed.(hash := m.hash) == m;
    SignThenVerify(m, cfgKey, f, mac);
  }

  /** A named gauge reading of the runtime statistics. */
  type Reading = (string, Float64)

  /**
    model.MetricsList: the poll counter with the gauge readings declared before it and after it.
    Which gauges sit on which side is a parameter.
   */
  datatype MetricsList = MetricsList(before: seq<Reading>, pollCount: Int64, after: seq<Reading>)

  /** The fresh gauge readings of one scrape, on either side of PollCount. */
  datatype Tick = Tick(before: seq<Reading>, after: seq<Reading>)

  /**
    scrape: replaces every reading with a fresh one and advances PollCount by one, with Go's
    wrapping int64 increment.
   */
  function Scrape(ml: MetricsList, tick: Tick): (r: MetricsList)
    ensures r.before == tick.before && r.after == tick.after
    ensures ml.pollCount < MAX_INT64 ==> r.pollCount == ml.pollCount + 1
    ensures ml.pollCount == MAX_INT64 ==> r.pollCount == MIN_INT64
  {
    MetricsList(tick.before, Add(ml.pollCount, 1), tick.after)
  }

  /** The state after one scrape per element of `ticks`, in order. */
  function ScrapeAll(ml: MetricsList, ticks: seq<Tick>): MetricsList
    decreases |ticks|
  {
    if ticks == [] then ml else ScrapeAll(Scrape(ml, ticks[0]), ticks[1..])
  }

  /** Starting from the zero value, PollCount counts the scrapes performed (until it would overflow). */
  lemma {:induction false} PollCountCountsScrapes(ml: MetricsList, ticks: seq<Tick>)
    requires ml.pollCount + |ticks| <= MAX_INT64
    ensures ScrapeAll(ml, ticks).pollCount == ml.pollCount + |ticks|
    decreases |ticks|
  {
    if ticks != [] {
      PollCountCountsScrapes(Scrape(ml, ticks[0]), ticks[1..]);
    }
  }

  /**
    The fields prepareMetricsArray visits in a MetricsList, in declaration order: the readings
    before PollCount as Gauges, PollCount as a Counter, the readings after it as Gauges.
   */
  function Fields(ml: MetricsList): (r: seq<Field>)
    ensures |r| == |ml.before| + 1 + |ml.after|
    ensures forall j :: 0 <= j < |r| ==> Consistent(r[j]) && !r[j].value.OtherField?
    ensures r[|ml.before|] == Field("PollCount", "Counter", IntField(ml.pollCount))
    ensures forall j :: 0 <= j < |r| && j != |ml.before| ==> r[j].value.FloatField?
  {
    var early := GaugeFields(ml.before);
    var late := GaugeFields(ml.after);
    var r := early + [PollCountField(ml.pollCount)] + late;
    assert forall j :: 0 <= j < |early| ==> r[j] == early[j];
    assert forall j :: |early| < j < |r| ==> r[j] == late[j - |early| - 1];
    r
  }

  /** The readings as gauge fields, in order. */
  function GaugeFields(readings: seq<Reading>): (r: seq<Field>)
    ensures |r| == |readings|
    ensures forall j :: 0 <= j < |r| ==> Consistent(r[j]) && r[j].value.FloatField?
    decreases |readings|
  {
    if readings == [] then []
    else
      var rest := GaugeFields(readings[1..]);
      var head := GaugeField(readings[0]);
      assert forall j :: 1 <= j < |rest| + 1 ==> ([head] + rest)[j] == rest[j - 1];
      [head] + rest
  }

  /** A reading of the runtime statistics as a field of type model.Gauge. */
  function GaugeField(reading: Reading): (r: Field)
    ensures Consistent(r) && r.value.FloatField?
  {
    GaugeTypeName();
    Field(reading.0, "Gauge", FloatField(reading.1))
  }

  /** The PollCount field, of type model.Counter. */
  function PollCountField(n: Int64): (r: Field)
    ensures Consistent(r) && r == Field("PollCount", "Counter", IntField(n))
  {
    CounterTypeName();
    Field("PollCount", "Counter", IntField(n))
  }

  /** A list of numeric fields is its own numeric part. */
  lemma {:induction false} NumericOfNumeric(fields: seq<Field>)
    requires forall j :: 0 <= j < |fields| ==> !fields[j].value.OtherField?
    ensures Numeric(fields) == fields
    decreases |fields|
  {
    if fields != [] {
      var prefix := fields[..|fields| - 1];
      assert forall j :: 0 <= j < |prefix| ==> prefix[j] == fields[j];
      NumericOfNumeric(prefix);
      assert fields == prefix + [fields[|fields| - 1]];
    }
  }

  /**
    After n scrapes from zero, the report the agent prepares never panics, has one sample per
    field, and its sample at PollCount's position is the counter PollCount carrying delta n.
   */
  lemma ReportCarriesPollCount(ml: MetricsList, ticks: seq<Tick>, hashKey: string, cfgKey: string, f: FloatFormat, mac: Mac)
    requires ml.pollCount == 0 && |ticks| <= MAX_INT64
    ensures var final := ScrapeAll(ml, ticks);
            var p := Prepared(Fields(final), hashKey, cfgKey, f, mac);
            && p.Returns?
            && |p.value| == |final.before| + 1 + |final.after|
            && p.value[|final.before|].id == "PollCount"
            && p.value[|final.before|].delta == Some(|ticks|)
  {
    PollCountCountsScrapes(ml, ticks);
    ReportHasPollCount(ScrapeAll(ml, ticks), hashKey, cfgKey, f, mac);
  }

  /**
    The report prepared from a MetricsList never panics; the sample at PollCount's position is
    the counter PollCount with its current value, and every other sample is a gauge.
   */
  lemma ReportHasPollCount(ml: MetricsList, hashKey: string, cfgKey: string, f: FloatFormat, mac: Mac)
    ensures var p := Prepared(Fields(ml), hashKey, cfgKey, f, mac);
            && p.Returns?
            && |p.value| == |ml.before| + 1 + |ml.after|
            && p.value[|ml.before|].id == "PollCount"
            && p.value[|ml.before|].delta == Some(ml.pollCount)
            && forall j :: 0 <= j < |p.value| && j != |ml.before| ==> p.value[j].value.Some?
  {
    var fields := Fields(ml);
    NumericOfNumeric(fields);
    PreparedShape(fields, hashKey, cfgKey, f, mac);
    var p := Prepared(fields, hashKey, cfgKey, f, mac).value;
    forall j | 0 <= j < |p|
      ensures p[j].(hash := ToMetric(fields[j]).value.hash) == ToMetric(fields[j]).value
    {
      assert Sign(ToMetric(fields[j]).value, hashKey, cfgKey, f, mac) == Returns(p[j]);
    }
    var m := ToMetric(PollCountField(ml.pollCount)).value;
    assert m.id == "PollCount" && m.delta == Some(ml.pollCount);
  }
}

=== FILE: api.dfy ===
/**
  The decision logic of the HTTP handlers of internal/api/api.go: which status each request
  gets and which store it leaves behind. Routing, body decoding, header parsing and response
  bodies other than a looked-up value are outside the model; a handler receives the decoded
  request and returns the status the client sees (the first one written) and the new store.
 */
module Api {
  import opened Wrappers
  import opened GoInt
  import opened Floats
  import opened Strconv
  import opened Hex
  import opened Metric
  import opened Integrity
  import Storage
  import Service

  const STATUS_OK: int := 200
  const STATUS_BAD_REQUEST: int := 400
  const STATUS_NOT_FOUND: int := 404
  const STATUS_UNSUPPORTED_MEDIA_TYPE: int := 415
  const STATUS_INTERNAL_SERVER_ERROR: int := 500
  const STATUS_NOT_IMPLEMENTED: int := 501

  const JSON_CONTENT_TYPE: string := "application/json"

  /** The status a client sees, or a handler that panicked (net/http drops the connection). */
  datatype Status = Code(code: int) | Panicked

  /** A mutating handler's outcome: the status and the store it leaves behind. */
  datatype Handled = Handled(status: Status, store: Storage.Store)

  /** A plain-text reply: status and body. */
  datatype Reply = Reply(code: int, body: string)

  /** A JSON reply: status and the encoded metric, if one is written. */
  datatype JsonReply = JsonReply(code: int, metric: Option<Metrics>)

  /** The `errors.As(err, &typeError)` mapping: nil is 200, a TypeError 501, anything else 400. */
  function StatusFor(err: Option<Service.ServiceError>): int {
    if err.None? then STATUS_OK
    else if err.value.TypeError? then STATUS_NOT_IMPLEMENTED
    else STATUS_BAD_REQUEST
  }

  /** The text a JSON sample's value is handed to the service as: FormatFloat(v, 'f', -1) or FormatInt(d, 10). */
  function WireValue(m: Metrics, f: FloatFormat): Deref<string> {
    Select(m, f.formatShortest, FormatInt)
  }

  /** The signature check the JSON handlers perform only when a key is configured. */
  function Authenticate(m: Metrics, key: string, f: FloatFormat, mac: Mac): Verdict {
    if key == "" then Verified else VerifyHash(m, key, f, mac)
  }

  /** A sample the JSON path can deliver: known type, payload present, and a finite gauge (JSON has no NaN or infinity). */
  predicate Deliverable(m: Metrics) {
    HasPayload(m) && (KindOf(m.mtype) == GaugeKind ==> IsFinite(m.value.value))
  }

  /**
    The merge a sample is meant to cause: a gauge overwrites, a counter adds its delta (wrapping)
    to the stored value or 0; a sample without a known type and payload changes nothing.
   */
  function Merge(s: Storage.Store, m: Metrics): Storage.Store {
    match KindOf(m.mtype)
    case GaugeKind => if m.value.Some? then Storage.SaveGauge(s, m.id, m.value.value) else s
    case CounterKind =>
      if m.delta.Some? then Storage.SaveCounter(s, m.id, Add(Storage.GetCounter(s, m.id).0, m.delta.value)) else s
    case UnknownKind => s
  }

  /**
    updateHandle (POST /update/{type}/{name}/{value}): 501 exactly for an unknown type, 200
    exactly when the service applied the update, 400 for a parse error; the store is the one
    the service leaves.
   */
  function UpdateHandle(s: Storage.Store, f: FloatFormat, metricType: string, name: string, value: string): (r: Handled)
    ensures r.status == Code(STATUS_NOT_IMPLEMENTED) <==> KindOf(metricType) == UnknownKind
    ensures r.status == Code(STATUS_OK) <==> Service.Update(s, f, metricType, name, value).err.None?
    ensures r.status == Code(STATUS_OK) || r.status == Code(STATUS_BAD_REQUEST) || r.status == Code(STATUS_NOT_IMPLEMENTED)
    ensures r.status != Code(STATUS_OK) ==> r.store == s
    ensures r.store == Service.Update(s, f, metricType, name, value).store
  {
    var applied := Service.Update(s, f, metricType, name, value);
    Handled(Code(StatusFor(applied.err)), applied.store)
  }

  /**
    getValueHandle (GET /value/{type}/{name}): 404 for an unknown type or a missing metric,
    otherwise 200 with the value; a counter is written in decimal and reads back as the stored
    value.
   */
  function GetValueHandle(s: Storage.Store, f: FloatFormat, metricType: string, name: string): (r: Reply)
    ensures r.code == STATUS_OK || r.code == STATUS_NOT_FOUND
    ensures r.code == STATUS_NOT_FOUND <==>
      || KindOf(metricType) == UnknownKind
      || (KindOf(metricType) == GaugeKind && name !in s.gauges)
      || (KindOf(metricType) == CounterKind && name !in s.counters)
    ensures KindOf(metricType) == GaugeKind && name in s.gauges ==> r.body == f.formatDefault(s.gauges[name])
    ensures KindOf(metricType) == CounterKind && name in s.counters ==> ParseInt(r.body) == Ok(s.counters[name])
  {
    match KindOf(metricType)
    case GaugeKind =>
      var (value, err) := Service.GetGauge(s, name);
      if err.None? then Reply(STATUS_OK, f.formatDefault(value)) else Reply(STATUS_NOT_FOUND, "")
    case CounterKind =>
      var (value, err) := Service.GetCounter(s, name);
      if err.None? then Reply(STATUS_OK, FormatInt(value)) else Reply(STATUS_NOT_FOUND, "")
    case UnknownKind => Reply(STATUS_NOT_FOUND, "")
  }

  /** A counter delta posted as text is answered 200 and read back as the old value plus the delta. */
  lemma CounterUpdateThenRead(s: Storage.Store, f: FloatFormat, metricType: string, name: string, d: Int64)
    requires KindOf(metricType) == CounterKind
    ensures var r := UpdateHandle(s, f, metricType, name, FormatInt(d));
            && r.status == Code(STATUS_OK)
            && var read := GetValueHandle(r.store, f, metricType, name);
               read.code == STATUS_OK && ParseInt(read.body) == Ok(Add(Storage.GetCounter(s, name).0, d))
  {
    FormatParseRoundTrip(d);
  }

  /** A gauge value that parses is answered 200 and read back as the %v text of the parsed value. */
  lemma GaugeUpdateThenRead(s: Storage.Store, f: FloatFormat, metricType: string, name: string, value: string)
    requires KindOf(metricType) == GaugeKind
    requires f.parseFloat(value).Some?
    ensures var r := UpdateHandle(s, f, metricType, name, value);
            && r.status == Code(STATUS_OK)
            && GetValueHandle(r.store, f, metricType, name) == Reply(STATUS_OK, f.formatDefault(f.parseFloat(value).value))
  {
  }

  /**
    jsonUpdateHandle (POST /update/): 415 unless the body is JSON, 400 when it does not decode or
    (with a key) does not verify, 501 for an unknown type without calling the service;
    otherwise the value is rendered as text and handed to the service. Any status but 200
    leaves the store as it was.
   */
  function JsonUpdateHandle(s: Storage.Store, key: string, f: FloatFormat, mac: Mac, contentType: string, body: Option<Metrics>): (r: Handled)
    ensures contentType != JSON_CONTENT_TYPE ==> r == Handled(Code(STATUS_UNSUPPORTED_MEDIA_TYPE), s)
    ensures contentType == JSON_CONTENT_TYPE && body.None? ==> r == Handled(Code(STATUS_BAD_REQUEST), s)
    ensures r.status != Code(STATUS_OK) ==> r.store == s
    ensures contentType == JSON_CONTENT_TYPE && body.Some? && KindOf(body.value.mtype) == UnknownKind ==>
      r == Handled(Code(if key == "" then STATUS_NOT_IMPLEMENTED else STATUS_BAD_REQUEST), s)
    ensures r.status == Panicked ==> !HasPayload(body.value)
    ensures contentType == JSON_CONTENT_TYPE && body.Some? && key != "" && VerifyHash(body.value, key, f, mac) == BadRequest ==>
      r == Handled(Code(STATUS_BAD_REQUEST), s)
  {
    if contentType != JSON_CONTENT_TYPE then Handled(Code(STATUS_UNSUPPORTED_MEDIA_TYPE), s)
    else if body.None? then Handled(Code(STATUS_BAD_REQUEST), s)
    else
      var m := body.value;
      match Authenticate(m, key, f, mac)
      case NilDeref => Handled(Panicked, s)
      case BadRequest => Handled(Code(STATUS_BAD_REQUEST), s)
      case Verified =>
        match WireValue(m, f)
        case NilPointer => Handled(Panicked, s)
        case UnknownType => Handled(Code(STATUS_NOT_IMPLEMENTED), s)
        case Got(value) =>
          var applied := Service.Update(s, f, m.mtype, m.id, value);
          Handled(Code(StatusFor(applied.err)), applied.store)
  }

  /**
    A verified, deliverable JSON sample is applied with status 200 and merges exactly its own
    value: the text round trip through FormatInt/ParseInt (and FormatFloat/ParseFloat) loses
    nothing.
   */
  lemma JsonUpdateApplies(s: Storage.Store, key: string, f: FloatFormat, mac: Mac, m: Metrics)
    requires ShortestRoundTrips(f)
    requires Deliverable(m)
    requires Authenticate(m, key, f, mac) == Verified
    ensures JsonUpdateHandle(s, key, f, mac, JSON_CONTENT_TYPE, Some(m)) == Handled(Code(STATUS_OK), Merge(s, m))
  {
    if KindOf(m.mtype) == CounterKind {
      FormatParseRoundTrip(m.delta.value);
    }
  }

  /**
    getJSONValueHandle (POST /value/): 415 unless the body is JSON, 400 when it does not decode,
    404 for an unknown type or a missing metric, otherwise 200 with the request's metric carrying
    the stored value, signed when a key is configured.
   */
  function GetJsonValueHandle(s: Storage.Store, key: string, f: FloatFormat, mac: Mac, contentType: string, body: Option<Metrics>): (r: JsonReply)
    ensures contentType != JSON_CONTENT_TYPE ==> r == JsonReply(STATUS_UNSUPPORTED_MEDIA_TYPE, None)
    ensures contentType == JSON_CONTENT_TYPE && body.None? ==> r == JsonReply(STATUS_BAD_REQUEST, None)
    ensures contentType == JSON_CONTENT_TYPE && body.Some? ==> r.code == STATUS_OK || r.code == STATUS_NOT_FOUND
    ensures r.code == STATUS_OK <==> r.metric.Some?
    ensures r.code == STATUS_OK ==>
      && body.Some?
      && HasPayload(r.metric.value)
      && r.metric.value.id == body.value.id
      && r.metric.value.mtype == body.value.mtype
      && (KindOf(body.value.mtype) == GaugeKind ==>
            body.value.id in s.gauges && r.metric.value.value == Some(s.gauges[body.value.id]))
      && (KindOf(body.value.mtype) == CounterKind ==>
            body.value.id in s.counters && r.metric.value.delta == Some(s.counters[body.value.id]))
    ensures contentType == JSON_CONTENT_TYPE && body.Some? ==>
      (r.code == STATUS_NOT_FOUND <==>
        || KindOf(body.value.mtype) == UnknownKind
        || (KindOf(body.value.mtype) == GaugeKind && body.value.id !in s.gauges)
        || (KindOf(body.value.mtype) == CounterKind && body.value.id !in s.counters))
  {
    if contentType != JSON_CONTENT_TYPE then JsonReply(STATUS_UNSUPPORTED_MEDIA_TYPE, None)
    else if body.None? then JsonReply(STATUS_BAD_REQUEST, None)
    else
      var m := body.value;
      match KindOf(m.mtype)
      case GaugeKind =>
        var (value, err) := Service.GetGauge(s, m.id);
        if err.Some? then JsonReply(STATUS_NOT_FOUND, None)
        else JsonReply(STATUS_OK, Some(SignIfKeyed(m.(value := Some(value)), key, f, mac)))
      case CounterKind =>
        var (value, err) := Service.GetCounter(s, m.id);
        if err.Some? then JsonReply(STATUS_NOT_FOUND, None)
        else JsonReply(STATUS_OK, Some(SignIfKeyed(m.(delta := Some(value)), key, f, mac)))
      case UnknownKind => JsonReply(STATUS_NOT_FOUND, None)
  }

  /** `if a.key != "" { hash(&metric, a.key) }` on a metric whose payload is set, which cannot panic. */
  function SignIfKeyed(m: Metrics, key: string, f: FloatFormat, mac: Mac): (r: Metrics)
    requires HasPayload(m)
    ensures r.(hash := m.hash) == m
    ensures key == "" ==> r == m
    ensures key != "" ==> Hash(m, key, f, mac) == Returns(r)
  {
    if key == "" then m else Hash(m, key, f, mac).value
  }

  /** A value the server returns under a key carries a signature that verifies under that key. */
  lemma ServedValueVerifies(s: Storage.Store, key: string, f: FloatFormat, mac: Mac, body: Metrics)
    requires key != ""
    requires GetJsonValueHandle(s, key, f, mac, JSON_CONTENT_TYPE, Some(body)).code == STATUS_OK
    ensures VerifyHash(GetJsonValueHandle(s, key, f, mac, JSON_CONTENT_TYPE, Some(body)).metric.value, key, f, mac) == Verified
  {
    var served := GetJsonValueHandle(s, key, f, mac, JSON_CONTENT_TYPE, Some(body)).metric.value;
    var unsigned := served.(hash := body.hash);
    SignThenVerify(unsigned, key, f, mac);
  }

  /**
    The loop of updatesHandle (POST /updates/) as written. `written` is the status already sent
    (the first WriteHeader wins). A failed signature check, an unknown type or a panic ends the
    request; a failed update writes its status and goes on; the first successful update ends the
    request, so the samples after it are never applied.
   */
  function UpdatesLoop(s: Storage.Store, key: string, f: FloatFormat, mac: Mac, ms: seq<Metrics>, written: Option<int>): (r: Handled)
    ensures ms == [] ==> r == Handled(Code(written.GetOr(STATUS_OK)), s)
    ensures written.Some? && r.status.Code? ==> r.status == Code(written.value)
    ensures r.status == Panicked ==> r.store == s
    decreases |ms|
  {
    if ms == [] then Handled(Code(written.GetOr(STATUS_OK)), s)
    else
      var m := ms[0];
      match Authenticate(m, key, f, mac)
      case NilDeref => Handled(Panicked, s)
      case BadRequest => Handled(Code(written.GetOr(STATUS_BAD_REQUEST)), s)
      case Verified =>
        match WireValue(m, f)
        case NilPointer => Handled(Panicked, s)
        case UnknownType => Handled(Code(written.GetOr(STATUS_NOT_IMPLEMENTED)), s)
        case Got(value) =>
          var applied := Service.Update(s, f, m.mtype, m.id, value);
          if applied.err.None? then Handled(Code(written.GetOr(STATUS_OK)), applied.store)
          else UpdatesLoop(s, key, f, mac, ms[1..], Some(written.GetOr(StatusFor(applied.err))))
  }

  /** updatesHandle as written: 415 unless JSON, 400 when the body does not decode, then the loop; an empty batch is a bare 200. */
  function UpdatesHandle(s: Storage.Store, key: string, f: FloatFormat, mac: Mac, contentType: string, body: Option<seq<Metrics>>): (r: Handled)
    ensures contentType != JSON_CONTENT_TYPE ==> r == Handled(Code(STATUS_UNSUPPORTED_MEDIA_TYPE), s)
    ensures contentType == JSON_CONTENT_TYPE && body.None? ==> r == Handled(Code(STATUS_BAD_REQUEST), s)
    ensures contentType == JSON_CONTENT_TYPE && body == Some([]) ==> r == Handled(Code(STATUS_OK), s)
  {
    if contentType != JSON_CONTENT_TYPE then Handled(Code(STATUS_UNSUPPORTED_MEDIA_TYPE), s)
    else if body.None? then Handled(Code(STATUS_BAD_REQUEST), s)
    else UpdatesLoop(s, key, f, mac, body.value, None)
  }

  /** The store one sample of the batch would leave if the loop applied it. */
  function UpdateOne(s: Storage.Store, f: FloatFormat, m: Metrics): Storage.Store {
    match WireValue(m, f)
    case Got(value) => Service.Update(s, f, m.mtype, m.id, value).store
    case _ => s
  }

  /** As written, a batch request changes the store by at most one of its samples. */
  lemma {:induction false} BatchAppliesAtMostOne(s: Storage.Store, key: string, f: FloatFormat, mac: Mac, ms: seq<Metrics>, written: Option<int>)
    ensures var r := UpdatesLoop(s, key, f, mac, ms, written);
            r.store == s || exists i :: 0 <= i < |ms| && Authenticate(ms[i], key, f, mac) == Verified && r.store == UpdateOne(s, f, ms[i])
    decreases |ms|
  {
    if ms != [] {
      var r := UpdatesLoop(s, key, f, mac, ms, written);
      if r.store != s {
        var m := ms[0];
        if Authenticate(m, key, f, mac) == Verified && WireValue(m, f).Got? {
          var applied := Service.Update(s, f, m.mtype, m.id, WireValue(m, f).v);
          if applied.err.None? {
            assert r.store == UpdateOne(s, f, ms[0]);
          } else {
            BatchAppliesAtMostOne(s, key, f, mac, ms[1..], Some(written.GetOr(StatusFor(applied.err))));
            var i :| 0 <= i < |ms[1..]| && Authenticate(ms[1..][i], key, f, mac) == Verified && r.store == UpdateOne(s, f, ms[1..][i]);
            assert r.store == UpdateOne(s, f, ms[i + 1]);
          }
        }
      }
    }
  }

  /** With a key set, a first sample whose signature is rejected ends the request with 400 (or the status already sent) and applies nothing. */
  lemma ForgedFirstSampleRejected(s: Storage.Store, key: string, f: FloatFormat, mac: Mac, ms: seq<Metrics>, written: Option<int>)
    requires key != "" && |ms| > 0 && VerifyHash(ms[0], key, f, mac) == BadRequest
    ensures UpdatesLoop(s, key, f, mac, ms, written) == Handled(Code(written.GetOr(STATUS_BAD_REQUEST)), s)
  {
  }

  /** As written, when the first sample is verified and deliverable, it alone is applied and the request ends with 200. */
  lemma BatchStopsAfterFirst(s: Storage.Store, key: string, f: FloatFormat, mac: Mac, ms: seq<Metrics>)
    requires ShortestRoundTrips(f)
    requires |ms| > 0 && Deliverable(ms[0]) && Authenticate(ms[0], key, f, mac) == Verified
    ensures UpdatesHandle(s, key, f, mac, JSON_CONTENT_TYPE, Some(ms)) == Handled(Code(STATUS_OK), Merge(s, ms[0]))
  {
    var m := ms[0];
    if KindOf(m.mtype) == CounterKind {
      FormatParseRoundTrip(m.delta.value);
    }
  }

  /** Two unsigned counter samples for different names: as written, the second is dropped although the reply is 200. */
  lemma BatchDropsSecondSample(f: FloatFormat, mac: Mac)
    ensures var first := Metrics("a", "counter", Some(1), None, "");
            var second := Metrics("b", "counter", Some(2), None, "");
            var r := UpdatesHandle(Storage.NewStorage(), "", f, mac, JSON_CONTENT_TYPE, Some([first, second]));
            && r.status == Code(STATUS_OK)
            && Storage.GetCounter(r.store, "a") == (1, true)
            && Storage.GetCounter(r.store, "b") == (0, false)
  {
    CounterTypeName();
    FormatParseRoundTrip(1);
  }

  /**
    updatesHandle as evidently intended: every sample goes through the single-update path in
    order; the first failure ends the request with its status (samples before it stay
    applied), and a batch that is processed to the end replies 200.
   */
  function UpdatesLoopAll(s: Storage.Store, key: string, f: FloatFormat, mac: Mac, ms: seq<Metrics>): (r: Handled)
    decreases |ms|
  {
    if ms == [] then Handled(Code(STATUS_OK), s)
    else
      var m := ms[0];
      match Authenticate(m, key, f, mac)
      case NilDeref => Handled(Panicked, s)
      case BadRequest => Handled(Code(STATUS_BAD_REQUEST), s)
      case Verified =>
        match WireValue(m, f)
        case NilPointer => Handled(Panicked, s)
        case UnknownType => Handled(Code(STATUS_NOT_IMPLEMENTED), s)
        case Got(value) =>
          var applied := Service.Update(s, f, m.mtype, m.id, value);
          if applied.err.None? then UpdatesLoopAll(applied.store, key, f, mac, ms[1..])
          else Handled(Code(StatusFor(applied.err)), s)
  }

  /** The corrected updatesHandle: the same checks in front of the corrected loop. */
  function UpdatesHandleAll(s: Storage.Store, key: string, f: FloatFormat, mac: Mac, contentType: string, body: Option<seq<Metrics>>): (r: Handled)
    ensures contentType != JSON_CONTENT_TYPE ==> r == Handled(Code(STATUS_UNSUPPORTED_MEDIA_TYPE), s)
    ensures contentType == JSON_CONTENT_TYPE && body.None? ==> r == Handled(Code(STATUS_BAD_REQUEST), s)
    ensures contentType == JSON_CONTENT_TYPE && body == Some([]) ==> r == Handled(Code(STATUS_OK), s)
  {
    if contentType != JSON_CONTENT_TYPE then Handled(Code(STATUS_UNSUPPORTED_MEDIA_TYPE), s)
    else if body.None? then Handled(Code(STATUS_BAD_REQUEST), s)
    else UpdatesLoopAll(s, key, f, mac, body.value)
  }

  /** Every sample of the batch merged into the store, in order. */
  function MergeAll(s: Storage.Store, ms: seq<Metrics>): Storage.Store
    decreases |ms|
  {
    if ms == [] then s else MergeAll(Merge(s, ms[0]), ms[1..])
  }

  /** The corrected batch handler applies every verified, deliverable sample, in order, and replies 200. */
  lemma {:induction false} BatchAppliesEvery(s: Storage.Store, key: string, f: FloatFormat, mac: Mac, ms: seq<Metrics>)
    requires ShortestRoundTrips(f)
    requires forall i :: 0 <= i < |ms| ==> Deliverable(ms[i]) && Authenticate(ms[i], key, f, mac) == Verified
    ensures UpdatesHandleAll(s, key, f, mac, JSON_CONTENT_TYPE, Some(ms)) == Handled(Code(STATUS_OK), MergeAll(s, ms))
    decreases |ms|
  {
    if ms != [] {
      var m := ms[0];
      if KindOf(m.mtype) == CounterKind {
        FormatParseRoundTrip(m.delta.value);
      }
      assert UpdatesLoopAll(s, key, f, mac, ms) == UpdatesLoopAll(Merge(s, m), key, f, mac, ms[1..]);
      BatchAppliesEvery(Merge(s, m), key, f, mac, ms[1..]);
    }
  }

  /** The same two-sample batch as above: the corrected handler stores both. */
  lemma CorrectedBatchKeepsSecondSample(f: FloatFormat, mac: Mac)
    ensures var first := Metrics("a", "counter", Some(1), None, "");
            var second := Metrics("b", "counter", Some(2), None, "");
            var r := UpdatesHandleAll(Storage.NewStorage(), "", f, mac, JSON_CONTENT_TYPE, Some([first, second]));
            && r.status == Code(STATUS_OK)
            && Storage.GetCounter(r.store, "a") == (1, true)
            && Storage.GetCounter(r.store, "b") == (2, true)
  {
    CounterTypeName();
    FormatParseRoundTrip(1);
    FormatParseRoundTrip(2);
  }

  /**
    getMetricsHandle (GET /): the listing writes PollCount = 24 into the map GetStorage returns,
    which is the service's live map, so the listing changes the server's state.
   */
  function ListHandle(s: Storage.Store): (r: Handled)
    ensures r.status == Code(STATUS_OK)
    ensures Storage.GetCounter(r.store, "PollCount") == (24, true)
    ensures Storage.SameExceptCounter(s, r.store, "PollCount")
  {
    var data := Service.GetStorage(s);
    Handled(Code(STATUS_OK), Storage.SaveCounter(data, "PollCount", 24))
  }

  /** After any listing, a read of counter PollCount answers 24, whatever was accumulated before. */
  lemma ListingOverwritesPollCount(s: Storage.Store, f: FloatFormat)
    ensures GetValueHandle(ListHandle(s).store, f, "counter", "PollCount") == Reply(STATUS_OK, "24")
  {
    CounterTypeName();
    assert FormatUnsigned(24) == FormatUnsigned(2) + ['4'];
  }

  /** pingStoreHandle: the in-memory service always answers 200. */
  function PingHandle(): (r: Status)
    ensures r == Code(STATUS_OK)
  {
    if Service.Ping().Some? then Code(STATUS_INTERNAL_SERVER_ERROR) else Code(STATUS_OK)
  }
}

=== FILE: floats.dfy ===
/**
  Go's float64, kept as its IEEE 754 bit pattern. No floating-point arithmetic is modelled;
  parsing and formatting are supplied from outside as a `FloatFormat`.
 */
module Floats {
  import opened Wrappers

  datatype Float64 = Float64(bits: bv64)

  /** +0.0, the zero value of a Go float64 (and of model.Gauge). */
  const ZERO: Float64 := Float64(0)

  /** Neither an infinity nor a NaN: the exponent field is not all ones. */
  predicate IsFinite(x: Float64) {
    (x.bits >> 52) & 0x7FF != 0x7FF
  }

  /** The float64 parsing and formatting routines of Go's standard library, left abstract. */
  datatype FloatFormat = FloatFormat(
    /** strconv.ParseFloat(s, 64); None stands for its error. */
    parseFloat: string -> Option<Float64>,
    /** strconv.FormatFloat(x, 'f', -1, 64): the shortest text that reads back as `x`. */
    formatShortest: Float64 -> string,
    /** fmt's `%f`: six digits after the point. */
    formatFixed: Float64 -> string,
    /** fmt's `%v`. */
    formatDefault: Float64 -> string)

  /**
    The guarantee strconv documents for precision -1: parsing the shortest rendering of a
    finite value yields that value.
   */
  ghost predicate ShortestRoundTrips(f: FloatFormat) {
    forall x :: IsFinite(x) ==> f.parseFloat(f.formatShortest(x)) == Some(x)
  }
}

=== FILE: goint.dfy ===
/** Go's int64, whose `+` wraps around in two's complement instead of failing. */
module GoInt {

  const TWO_63: int := 0x8000_0000_0000_0000
  const TWO_64: int := 0x1_0000_0000_0000_0000
  const MIN_INT64: int := -TWO_63
  const MAX_INT64: int := TWO_63 - 1

  type Int64 = x: int | MIN_INT64 <= x <= MAX_INT64

  predicate InInt64Range(x: int) {
    MIN_INT64 <= x <= MAX_INT64
  }

  /** The int64 that the mathematical integer `x` becomes when truncated to 64 bits. */
  function Wrap(x: int): (r: Int64)
    ensures (x - r) % TWO_64 == 0
    ensures InInt64Range(x) ==> r == x
  {
    (x + TWO_63) % TWO_64 - TWO_63
  }

  /** Go's `a + b` on int64: the exact sum when it fits, otherwise the sum wrapped modulo 2^64. */
  function Add(a: Int64, b: Int64): (r: Int64)
    ensures (a + b - r) % TWO_64 == 0
    ensures InInt64Range(a + b) ==> r == a + b
    ensures !InInt64Range(a + b) ==> r == a + b - TWO_64 || r == a + b + TWO_64
  {
    Wrap(a + b)
  }

  /** No int64 but `Wrap(x)` is congruent to `x`: the wrapped sum is determined by the true sum. */
  lemma WrapUnique(x: int, r: Int64)
    requires (x - r) % TWO_64 == 0
    ensures r == Wrap(x)
  {
    var w := Wrap(x);
    var q1 := (x - r) / TWO_64;
    var q2 := (x - w) / TWO_64;
    assert x - r == q1 * TWO_64;
    assert x - w == q2 * TWO_64;
    assert w - r == (q1 - q2) * TWO_64;
    assert -TWO_64 < w - r < TWO_64;
  }

  /** Wrapping addition is associative, so a counter's total does not depend on how deltas are grouped. */
  lemma AddAssociative(a: Int64, b: Int64, c: Int64)
    ensures Add(Add(a, b), c) == Add(a, Add(b, c))
  {
    var ab := Add(a, b);
    var bc := Add(b, c);
    var left := Add(ab, c);
    var right := Add(a, bc);
    var qab := (a + b - ab) / TWO_64;
    var qbc := (b + c - bc) / TWO_64;
    var ql := (ab + c - left) / TWO_64;
    assert a + b - ab == qab * TWO_64;
    assert b + c - bc == qbc * TWO_64;
    assert ab + c - left == ql * TWO_64;
    assert a + b + c - left == (qab + ql) * TWO_64;
    assert (a + b + c - left) % TWO_64 == 0;
    WrapUnique(a + b + c, left);
    var qr := (a + bc - right) / TWO_64;
    assert a + bc - right == qr * TWO_64;
    assert a + b + c - right == (qbc + qr) * TWO_64;
    assert (a + b + c - right) % TWO_64 == 0;
    WrapUnique(a + b + c, right);
  }

  /** Wrapping addition is commutative. */
  lemma AddCommutative(a: Int64, b: Int64)
    ensures Add(a, b) == Add(b, a)
  {
  }

  /** Two deltas added to a counter in either order leave the same total. */
  lemma AddOrderIrrelevant(start: Int64, d1: Int64, d2: Int64)
    ensures Add(Add(start, d1), d2) == Add(Add(start, d2), d1)
  {
    AddAssociative(start, d1, d2);
    AddCommutative(d1, d2);
    AddAssociative(start, d2, d1);
  }
}

=== FILE: hex.dfy ===
/** Go's encoding/hex: `EncodeToString` writes lower-case digits, `DecodeString` reads either case. */
module Hex {
  import opened Wrappers

  type Byte = b: int | 0 <= b < 256

  const DIGITS: string := "0123456789abcdef"

  /** The value of one hexadecimal digit of either case, or None for any other character. */
  function FromHexChar(c: char): (r: Option<nat>)
    ensures r.Some? ==> r.value < 16
  {
    if '0' <= c <= '9' then Some(c as int - '0' as int)
    else if 'a' <= c <= 'f' then Some(c as int - 'a' as int + 10)
    else if 'A' <= c <= 'F' then Some(c as int - 'A' as int + 10)
    else None
  }

  predicate IsHexChar(c: char) {
    FromHexChar(c).Some?
  }

  predicate IsLowerHexChar(c: char) {
    '0' <= c <= '9' || 'a' <= c <= 'f'
  }

  /** Two lower-case hexadecimal digits per byte, most significant nibble first. */
  function EncodeToString(b: seq<Byte>): (s: string)
    ensures |s| == 2 * |b|
    ensures forall i :: 0 <= i < |s| ==> IsLowerHexChar(s[i])
  {
    if b == [] then "" else [DIGITS[b[0] / 16], DIGITS[b[0] % 16]] + EncodeToString(b[1..])
  }

  /**
    The bytes a hexadecimal string denotes; None (Go's ErrLength or InvalidByteError) when the
    length is odd or some character is not a hexadecimal digit.
   */
  function DecodeString(s: string): (r: Option<seq<Byte>>)
    ensures r.Some? <==> |s| % 2 == 0 && forall i :: 0 <= i < |s| ==> IsHexChar(s[i])
    ensures r.Some? ==> 2 * |r.value| == |s|
    decreases |s|
  {
    if s == "" then Some([])
    else if |s| == 1 then None
    else
      assert forall i :: 2 <= i < |s| ==> s[i] == s[2..][i - 2];
      var hi := FromHexChar(s[0]);
      var lo := FromHexChar(s[1]);
      var rest := DecodeString(s[2..]);
      if hi.None? || lo.None? || rest.None? then None
      else Some([hi.value * 16 + lo.value] + rest.value)
  }

  /** Each digit of the table reads back as its own position. */
  lemma DigitsInverse(x: nat)
    requires x < 16
    ensures FromHexChar(DIGITS[x]) == Some(x)
  {
  }

  /** Decoding the hexadecimal text of a byte string yields the same bytes. */
  lemma {:induction false} DecodeEncode(b: seq<Byte>)
    ensures DecodeString(EncodeToString(b)) == Some(b)
  {
    if b != [] {
      var rest := EncodeToString(b[1..]);
      var s := [DIGITS[b[0] / 16], DIGITS[b[0] % 16]] + rest;
      assert s == EncodeToString(b);
      DigitsInverse(b[0] / 16);
      DigitsInverse(b[0] % 16);
      assert s[2..] == rest;
      DecodeEncode(b[1..]);
      assert b == [b[0] / 16 * 16 + b[0] % 16] + b[1..];
    }
  }

  /** Lower-case hexadecimal text is exactly the encoding of the bytes it decodes to. */
  lemma {:induction false} EncodeDecode(s: string)
    requires DecodeString(s).Some?
    requires forall i :: 0 <= i < |s| ==> IsLowerHexChar(s[i])
    ensures EncodeToString(DecodeString(s).value) == s
    decreases |s|
  {
    if s != "" {
      var b := DecodeString(s).value;
      var hi := FromHexChar(s[0]).value;
      var lo := FromHexChar(s[1]).value;
      assert b[0] == hi * 16 + lo;
      assert b[0] / 16 == hi && b[0] % 16 == lo;
      assert DIGITS[hi] == s[0];
      assert DIGITS[lo] == s[1];
      assert forall i :: 0 <= i < |s[2..]| ==> s[2..][i] == s[i + 2];
      EncodeDecode(s[2..]);
      assert b[1..] == DecodeString(s[2..]).value;
      assert s == [s[0], s[1]] + s[2..];
    }
  }
}

=== FILE: integrity.dfy ===
/**
  Signing and verification of samples (`hash` and `verifyHash` of internal/api/api.go; the
  agent's `hash` in cmd/agent/main.go is the same code). The signed message is
  `<id>:gauge:<%f of value>` or `<id>:counter:<%d of delta>`; the signature is the HMAC-SHA256 of
  that message under the key, written as lower-case hexadecimal.
 */
module Integrity {
  import opened Wrappers
  import opened GoInt
  import opened Floats
  import opened Strconv
  import opened Hex
  import opened Metric

  /** HMAC-SHA256 of a message under a key, left uninterpreted; hmac.Equal is byte equality. */
  type Mac = (string, string) -> seq<Byte>

  /** The canonical text the signature covers, by the metric's type. */
  function Message(m: Metrics, f: FloatFormat): (r: Deref<string>)
    ensures r.Got? <==> HasPayload(m)
    ensures r.UnknownType? <==> KindOf(m.mtype) == UnknownKind
  {
    Select(m, (v: Float64) => m.id + ":gauge:" + f.formatFixed(v), (d: Int64) => m.id + ":counter:" + FormatInt(d))
  }

  /** hash: sets the signature field; an unknown type leaves the metric as it is. */
  function Hash(m: Metrics, key: string, f: FloatFormat, mac: Mac): (r: Go<Metrics>)
    ensures r.Returns? <==> !Message(m, f).NilPointer?
    ensures KindOf(m.mtype) == UnknownKind ==> r == Returns(m)
    ensures r.Returns? ==> r.value.(hash := m.hash) == m
    ensures HasPayload(m) ==> r.Returns? && DecodeString(r.value.hash) == Some(mac(key, Message(m, f).v))
  {
    match Message(m, f)
    case NilPointer => Panics
    case UnknownType => Returns(m)
    case Got(msg) =>
      var sign := EncodeToString(mac(key, msg));
      DecodeEncode(mac(key, msg));
      Returns(m.(hash := sign))
  }

  /** The result of verifyHash: nil, the "bad request" error, or a nil-pointer panic. */
  datatype Verdict = Verified | BadRequest | NilDeref

  /**
    verifyHash: the metric verifies exactly when its type is known, its payload is present and
    its hexadecimal signature decodes to the HMAC of its message. An unknown type, a signature
    that is not hexadecimal and a mismatch are one and the same error.
   */
  function VerifyHash(m: Metrics, key: string, f: FloatFormat, mac: Mac): (r: Verdict)
    ensures r == Verified <==> HasPayload(m) && DecodeString(m.hash) == Some(mac(key, Message(m, f).v))
    ensures r == NilDeref <==> Message(m, f).NilPointer?
    ensures KindOf(m.mtype) == UnknownKind ==> r == BadRequest
    ensures DecodeString(m.hash).None? && !Message(m, f).NilPointer? ==> r == BadRequest
  {
    match Message(m, f)
    case NilPointer => NilDeref
    case UnknownType => BadRequest
    case Got(msg) =>
      var sign := mac(key, msg);
      var given := DecodeString(m.hash);
      if given.None? then BadRequest
      else if sign == given.value then Verified
      else BadRequest
  }

  /** A metric signed with a key verifies under that key. */
  lemma SignThenVerify(m: Metrics, key: string, f: FloatFormat, mac: Mac)
    requires HasPayload(m)
    ensures Hash(m, key, f, mac).Returns?
    ensures VerifyHash(Hash(m, key, f, mac).value, key, f, mac) == Verified
  {
    var signed := Hash(m, key, f, mac).value;
    assert signed == m.(hash := signed.hash);
    assert Message(signed, f) == Message(m, f);
  }

  /** A signature whose bytes differ from the HMAC of the message is rejected. */
  lemma TamperedSignatureRejected(m: Metrics, key: string, f: FloatFormat, mac: Mac, forged: seq<Byte>)
    requires HasPayload(m)
    requires forged != mac(key, Message(m, f).v)
    ensures VerifyHash(m.(hash := EncodeToString(forged)), key, f, mac) == BadRequest
  {
    var tampered := m.(hash := EncodeToString(forged));
    assert Message(tampered, f) == Message(m, f);
    DecodeEncode(forged);
  }

  /** A metric signed under one key is rejected under a key whose HMAC of the message differs. */
  lemma WrongKeyRejected(m: Metrics, key: string, other: string, f: FloatFormat, mac: Mac)
    requires HasPayload(m)
    requires mac(key, Message(m, f).v) != mac(other, Message(m, f).v)
    ensures VerifyHash(Hash(m, key, f, mac).value, other, f, mac) == BadRequest
  {
    var signed := Hash(m, key, f, mac).value;
    assert signed == m.(hash := signed.hash);
    assert Message(signed, f) == Message(m, f);
  }
}

=== FILE: metric.dfy ===
/** The wire record of one sample and the case-insensitive dispatch on its type name. */
module Metric {
  import opened Wrappers
  import opened GoInt
  import opened Floats

  /** model.GaugeType and model.CounterType, the lower-case type names of the two kinds. */
  const GAUGE_TYPE: string := "gauge"
  const COUNTER_TYPE: string := "counter"

  datatype Kind = GaugeKind | CounterKind | UnknownKind

  /**
    model.Metrics: `delta` and `value` are Go pointers (None is nil), `hash` is the hexadecimal
    signature or "".
   */
  datatype Metrics = Metrics(id: string, mtype: string, delta: Option<Int64>, value: Option<Float64>, hash: string)

  function LowerChar(c: char): char {
    if 'A' <= c <= 'Z' then (c as int - 'A' as int + 'a' as int) as char else c
  }

  /**
    strings.ToLower restricted to ASCII. It is compared only with "gauge" and "counter", and no
    other character lower-cases to a letter of those words, so the comparisons agree with Go's.
   */
  function ToLower(s: string): (r: string)
    ensures |r| == |s|
    ensures forall i :: 0 <= i < |s| ==> r[i] == LowerChar(s[i])
  {
    seq(|s|, i requires 0 <= i < |s| => LowerChar(s[i]))
  }

  /** The `switch strings.ToLower(metricType)` of the service, the handlers and both `hash` functions. */
  function KindOf(metricType: string): Kind {
    var lower := ToLower(metricType);
    if lower == GAUGE_TYPE then GaugeKind
    else if lower == COUNTER_TYPE then CounterKind
    else UnknownKind
  }

  /** The dispatch ignores case: a type name and its lower-case form select the same kind. */
  lemma KindOfIgnoresCase(metricType: string)
    ensures KindOf(ToLower(metricType)) == KindOf(metricType)
  {
    assert ToLower(ToLower(metricType)) == ToLower(metricType);
  }

  /** What a switch on the type followed by `*metric.Value` or `*metric.Delta` produces. */
  datatype Deref<+T> = Got(v: T) | UnknownType | NilPointer

  /**
    Dispatches on the metric's type and dereferences the pointer that type needs: the gauge
    value, the counter delta, a nil-pointer dereference, or no case at all.
   */
  function Select<T>(m: Metrics, onGauge: Float64 -> T, onCounter: Int64 -> T): (r: Deref<T>)
    ensures r.UnknownType? <==> KindOf(m.mtype) == UnknownKind
    ensures r.Got? <==> HasPayload(m)
  {
    match KindOf(m.mtype)
    case GaugeKind => if m.value.Some? then Got(onGauge(m.value.value)) else NilPointer
    case CounterKind => if m.delta.Some? then Got(onCounter(m.delta.value)) else NilPointer
    case UnknownKind => UnknownType
  }

  /** The metric names a known type and carries the pointer that type is read through. */
  predicate HasPayload(m: Metrics) {
    || (KindOf(m.mtype) == GaugeKind && m.value.Some?)
    || (KindOf(m.mtype) == CounterKind && m.delta.Some?)
  }

  /** The type names the agent and the tests use select the expected kinds, whatever their case. */
  lemma GaugeTypeName()
    ensures KindOf("gauge") == GaugeKind && KindOf("Gauge") == GaugeKind
  {
    assert ToLower("Gauge") == "gauge";
  }

  lemma CounterTypeName()
    ensures KindOf("counter") == CounterKind && KindOf("Counter") == CounterKind
  {
    assert ToLower("Counter") == "counter";
  }

  lemma HistogramTypeName()
    ensures KindOf("histogram") == UnknownKind && KindOf("Histogram") == UnknownKind
  {
    assert |ToLower("histogram")| == |ToLower("Histogram")| == 9;
  }
}

=== FILE: service.dfy ===
/**
  The update service of internal/service/service.go: case-insensitive dispatch on the metric
  type, parsing of the raw value, and the merge into the store (gauges overwrite, counters add
  with wrap-around).
 */
module Service {
  import opened Wrappers
  import opened GoInt
  import opened Floats
  import opened Strconv
  import opened Metric
  import Storage

  /**
    The errors Update and the getters return: `*TypeError` for an unknown type, the parse errors
    of strconv (never a TypeError), and "metric not exist".
   */
  datatype ServiceError = TypeError | ParseIntError(kind: NumError) | ParseFloatError | NotExist

  /** The error Update returns together with the store it leaves behind. */
  datatype Applied = Applied(err: Option<ServiceError>, store: Storage.Store)

  /**
    service.Update. An unknown type is a TypeError and any parse failure is a parse error; on
    every error the store is left as it was. A parsed gauge replaces the stored gauge; a parsed
    counter delta is added (wrapping) to the stored counter, or to 0 when there is none. Only the
    named metric of the named kind changes.
   */
  function Update(s: Storage.Store, f: FloatFormat, metricType: string, name: string, value: string): (r: Applied)
    ensures r.err.Some? ==> r.store == s
    ensures r.err == Some(TypeError) <==> KindOf(metricType) == UnknownKind
    ensures KindOf(metricType) == GaugeKind ==>
      && (r.err.None? <==> f.parseFloat(value).Some?)
      && (r.err.None? ==> Storage.GetGauge(r.store, name) == (f.parseFloat(value).value, true))
      && Storage.SameExceptGauge(s, r.store, name)
    ensures KindOf(metricType) == CounterKind ==>
      && (r.err.None? <==> IsDecimal(value) && InInt64Range(DecimalValue(value)))
      && (r.err.None? ==> Storage.GetCounter(r.store, name) == (Add(Storage.GetCounter(s, name).0, DecimalValue(value)), true))
      && Storage.SameExceptCounter(s, r.store, name)
  {
    match KindOf(metricType)
    case GaugeKind =>
      var parsed := f.parseFloat(value);
      if parsed.None? then Applied(Some(ParseFloatError), s)
      else Applied(None, Storage.SaveGauge(s, name, parsed.value))
    case CounterKind =>
      var parsed := ParseInt(value);
      if parsed.Err? then Applied(Some(ParseIntError(parsed.error)), s)
      else
        var current := Storage.GetCounter(s, name).0;
        Applied(None, Storage.SaveCounter(s, name, Add(current, parsed.value)))
    case UnknownKind => Applied(Some(TypeError), s)
  }

  /** service.GetGauge: the stored value, or 0 with "metric not exist". */
  function GetGauge(s: Storage.Store, name: string): (r: (Float64, Option<ServiceError>))
    ensures r.1.None? <==> name in s.gauges
    ensures r.1.None? ==> r.0 == s.gauges[name]
    ensures r.1.Some? ==> r == (ZERO, Some(NotExist))
  {
    var (value, ok) := Storage.GetGauge(s, name);
    if ok then (value, None) else (ZERO, Some(NotExist))
  }

  /** service.GetCounter: the stored value, or 0 with "metric not exist". */
  function GetCounter(s: Storage.Store, name: string): (r: (Int64, Option<ServiceError>))
    ensures r.1.None? <==> name in s.counters
    ensures r.1.None? ==> r.0 == s.counters[name]
    ensures r.1.Some? ==> r == (0, Some(NotExist))
  {
    var (value, ok) := Storage.GetCounter(s, name);
    if ok then (value, None) else (0, Some(NotExist))
  }

  /**
    service.GetStorage: the service's store itself. Its maps are the live maps, so a write into
    the result is a write into the service's state.
   */
  function GetStorage(s: Storage.Store): (r: Storage.Store)
    ensures forall n :: Storage.GetGauge(r, n) == Storage.GetGauge(s, n) && Storage.GetCounter(r, n) == Storage.GetCounter(s, n)
  {
    s
  }

  /** service.Ping: the in-memory service has no backend to reach and always succeeds. */
  function Ping(): (r: Option<ServiceError>)
    ensures r.None?
  {
    None
  }

  /** Two gauge updates to one name leave the second value, not a combination of both. */
  lemma GaugeLastWriteWins(s: Storage.Store, f: FloatFormat, metricType: string, name: string, v1: string, v2: string)
    requires KindOf(metricType) == GaugeKind
    requires f.parseFloat(v1).Some? && f.parseFloat(v2).Some?
    ensures var first := Update(s, f, metricType, name, v1);
            var second := Update(first.store, f, metricType, name, v2);
            second.err.None? && GetGauge(second.store, name) == (f.parseFloat(v2).value, None)
  {
  }

  /** Counter deltas d1 then d2 on an absent name leave d1 + d2 (wrapped to int64). */
  lemma CounterAccumulates(s: Storage.Store, f: FloatFormat, metricType: string, name: string, d1: Int64, d2: Int64)
    requires KindOf(metricType) == CounterKind
    requires name !in s.counters
    ensures var first := Update(s, f, metricType, name, FormatInt(d1));
            var second := Update(first.store, f, metricType, name, FormatInt(d2));
            && second.err.None?
            && GetCounter(second.store, name) == (Add(d1, d2), None)
            && (InInt64Range(d1 + d2) ==> GetCounter(second.store, name) == (d1 + d2, None))
  {
  }

  /** Three updates of counter PollCount by "1" from an empty store leave 3. */
  lemma PollCountScenario(f: FloatFormat)
    ensures var s1 := Update(Storage.NewStorage(), f, "counter", "PollCount", "1").store;
            var s2 := Update(s1, f, "counter", "PollCount", "1").store;
            var s3 := Update(s2, f, "counter", "PollCount", "1").store;
            GetCounter(s3, "PollCount") == (3, None)
  {
    CounterTypeName();
    assert IsDecimal("1") && DecimalValue("1") == 1 by {
      assert Unsigned("1") == "1";
      assert Horner(0, "1") == Horner(1, "1"[1..]);
    }
  }

  /**
    The error cases of the service's own table: an unknown type is a TypeError and changes
    nothing; "63.243" as a counter and an unparsable gauge text are parse errors, not TypeErrors.
   */
  lemma ErrorScenarios(s: Storage.Store, f: FloatFormat)
    requires f.parseFloat("65 + 23i").None?
    ensures Update(s, f, "histogram", "Total", "63.243") == Applied(Some(TypeError), s)
    ensures Update(s, f, "counter", "PollCounter", "63.243") == Applied(Some(ParseIntError(ErrSyntax)), s)
    ensures Update(s, f, "gauge", "TotalMemory", "65 + 23i") == Applied(Some(ParseFloatError), s)
  {
    GaugeTypeName();
    CounterTypeName();
    HistogramTypeName();
    ParseIntRejectsFraction();
  }

  /** A lookup of a name never written reports "metric not exist" with the zero value. */
  lemma NeverSetIsNotFound()
    ensures GetCounter(Storage.NewStorage(), "NeverSet") == (0, Some(NotExist))
    ensures GetGauge(Storage.NewStorage(), "NeverSet") == (ZERO, Some(NotExist))
  {
  }
}

=== FILE: storage.dfy ===
/**
  The sample store of model/storage.go, duplicated with an extra `GetAll` in
  internal/storage/storage.go: two name-to-value maps with overwrite-only saves and no delete.
 */
module Storage {
  import opened GoInt
  import opened Floats

  datatype Store = Store(gauges: map<string, Float64>, counters: map<string, Int64>)

  /** NewStorage / New: both maps empty. */
  function NewStorage(): (s: Store)
    ensures forall n :: GetGauge(s, n) == (ZERO, false) && GetCounter(s, n) == (0, false)
  {
    Store(map[], map[])
  }

  /** The `(value, ok)` lookup of a Go map: the zero value and false when the name is absent. */
  function GetGauge(s: Store, name: string): (r: (Float64, bool))
    ensures r.1 <==> name in s.gauges
    ensures r.1 ==> r.0 == s.gauges[name]
    ensures !r.1 ==> r.0 == ZERO
  {
    if name in s.gauges then (s.gauges[name], true) else (ZERO, false)
  }

  function GetCounter(s: Store, name: string): (r: (Int64, bool))
    ensures r.1 <==> name in s.counters
    ensures r.1 ==> r.0 == s.counters[name]
    ensures !r.1 ==> r.0 == 0
  {
    if name in s.counters then (s.counters[name], true) else (0, false)
  }

  /** `t` differs from `s` at most in the gauge called `name`. */
  ghost predicate SameExceptGauge(s: Store, t: Store, name: string) {
    && t.counters == s.counters
    && forall m :: m != name ==> GetGauge(t, m) == GetGauge(s, m)
  }

  /** `t` differs from `s` at most in the counter called `name`. */
  ghost predicate SameExceptCounter(s: Store, t: Store, name: string) {
    && t.gauges == s.gauges
    && forall m :: m != name ==> GetCounter(t, m) == GetCounter(s, m)
  }

  /** Every name present in `s`, of either kind, is still present in `t`. */
  ghost predicate KeysGrow(s: Store, t: Store) {
    s.gauges.Keys <= t.gauges.Keys && s.counters.Keys <= t.counters.Keys
  }

  /** Sets the gauge to exactly `value`, whatever it held before, and touches nothing else. */
  function SaveGauge(s: Store, name: string, value: Float64): (r: Store)
    ensures GetGauge(r, name) == (value, true)
    ensures SameExceptGauge(s, r, name)
    ensures r.gauges.Keys == s.gauges.Keys + {name}
  {
    s.(gauges := s.gauges[name := value])
  }

  /** Sets the counter to `value` as an absolute value (it does not add) and touches nothing else. */
  function SaveCounter(s: Store, name: string, value: Int64): (r: Store)
    ensures GetCounter(r, name) == (value, true)
    ensures SameExceptCounter(s, r, name)
    ensures r.counters.Keys == s.counters.Keys + {name}
  {
    s.(counters := s.counters[name := value])
  }

  /** internal/storage's GetAll: the current maps, read without change. */
  function GetAll(s: Store): (r: Store)
    ensures forall n :: GetGauge(r, n) == GetGauge(s, n) && GetCounter(r, n) == GetCounter(s, n)
  {
    s
  }

  /** Two gauge saves to one name leave the second value, as if the first had not happened. */
  lemma GaugeLastWriteWins(s: Store, name: string, v: Float64, w: Float64)
    ensures GetGauge(SaveGauge(SaveGauge(s, name, v), name, w), name) == (w, true)
    ensures SaveGauge(SaveGauge(s, name, v), name, w) == SaveGauge(s, name, w)
  {
  }

  /** A counter save replaces: the stored value is `v` whatever was stored before. */
  lemma SaveCounterIsAbsolute(s: Store, name: string, prior: Int64, v: Int64)
    ensures GetCounter(SaveCounter(SaveCounter(s, name, prior), name, v), name) == (v, true)
    ensures SaveCounter(SaveCounter(s, name, prior), name, v) == SaveCounter(s, name, v)
  {
  }

  /** One store mutation; there is no delete. */
  datatype Save = SaveG(gname: string, gvalue: Float64) | SaveC(cname: string, cvalue: Int64)

  function Apply(s: Store, op: Save): Store {
    match op
    case SaveG(n, v) => SaveGauge(s, n, v)
    case SaveC(n, v) => SaveCounter(s, n, v)
  }

  function ApplyAll(s: Store, ops: seq<Save>): Store
    decreases |ops|
  {
    if ops == [] then s else ApplyAll(Apply(s, ops[0]), ops[1..])
  }

  /**
    Whatever sequence of saves is applied, every name already stored stays stored and every
    saved name becomes stored: the key sets only grow.
   */
  lemma {:induction false} KeysOnlyGrow(s: Store, ops: seq<Save>)
    ensures KeysGrow(s, ApplyAll(s, ops))
    ensures forall i :: 0 <= i < |ops| && ops[i].SaveG? ==> ops[i].gname in ApplyAll(s, ops).gauges
    ensures forall i :: 0 <= i < |ops| && ops[i].SaveC? ==> ops[i].cname in ApplyAll(s, ops).counters
    decreases |ops|
  {
    if ops != [] {
      var t := Apply(s, ops[0]);
      KeysOnlyGrow(t, ops[1..]);
      assert forall i :: 1 <= i < |ops| ==> ops[i] == ops[1..][i - 1];
    }
  }
}

=== FILE: strconv.dfy ===
/**
  Decimal conversion of int64 values as Go's strconv package performs it:
  `ParseInt(s, 10, 64)` (with the `ParseUint` scan it relies on) and `FormatInt(d, 10)`.
 */
module Strconv {
  import opened Wrappers
  import opened GoInt

  const MAX_UINT64: int := TWO_64 - 1

  /** The smallest accumulated value whose product with 10 no longer fits in a uint64. */
  const CUTOFF: int := MAX_UINT64 / 10 + 1

  /** The two failures of a numeric parse: the text is not a number, or the number does not fit. */
  datatype NumError = ErrSyntax | ErrRange

  predicate IsDigit(c: char) {
    '0' <= c <= '9'
  }

  predicate AllDigits(s: string) {
    forall i :: 0 <= i < |s| ==> IsDigit(s[i])
  }

  function DigitValue(c: char): nat
    requires IsDigit(c)
  {
    c as int - '0' as int
  }

  function DigitChar(d: nat): (c: char)
    requires d < 10
    ensures IsDigit(c) && DigitValue(c) == d
  {
    ('0' as int + d) as char
  }

  /** The value of the digits `s`, read most significant first, continuing from the value `n`. */
  function Horner(n: nat, s: string): (r: nat)
    requires AllDigits(s)
    ensures r >= n
    decreases |s|
  {
    if s == [] then n else Horner(n * 10 + DigitValue(s[0]), s[1..])
  }

  /** Appending one digit multiplies the value read so far by ten and adds the digit. */
  lemma {:induction false} HornerSnoc(n: nat, s: string, c: char)
    requires AllDigits(s) && IsDigit(c)
    ensures AllDigits(s + [c])
    ensures Horner(n, s + [c]) == Horner(n, s) * 10 + DigitValue(c)
    decreases |s|
  {
    assert forall i :: 0 <= i < |s + [c]| ==> (s + [c])[i] == if i < |s| then s[i] else c;
    if s != [] {
      assert (s + [c])[1..] == s[1..] + [c];
      HornerSnoc(n * 10 + DigitValue(s[0]), s[1..], c);
    }
  }

  /**
    The digit loop of ParseUint(s, 10, 64): a non-digit is a syntax error, and an accumulated
    value that would exceed the uint64 range is a range error, whichever comes first.
   */
  function ScanUint(n: nat, s: string): (r: Result<nat, NumError>)
    requires n <= MAX_UINT64
    ensures r.Ok? <==> AllDigits(s) && Horner(n, s) <= MAX_UINT64
    ensures r.Ok? ==> r.value == Horner(n, s)
    ensures AllDigits(s) ==> r != Err(ErrSyntax)
    decreases |s|
  {
    if s == [] then Ok(n)
    else if !IsDigit(s[0]) then Err(ErrSyntax)
    else
      assert AllDigits(s) <==> AllDigits(s[1..]) by {
        assert forall i :: 0 < i < |s| ==> s[i] == s[1..][i - 1];
      }
      if n >= CUTOFF then Err(ErrRange)
      else
        var n1 := n * 10 + DigitValue(s[0]);
        if n1 > MAX_UINT64 then Err(ErrRange) else ScanUint(n1, s[1..])
  }

  /** strconv.ParseUint(s, 10, 64). */
  function ParseUint(s: string): Result<nat, NumError> {
    if s == "" then Err(ErrSyntax) else ScanUint(0, s)
  }

  /** `s` with at most one leading sign removed. */
  function Unsigned(s: string): string {
    if |s| > 0 && (s[0] == '+' || s[0] == '-') then s[1..] else s
  }

  /** `s` matches `[+-]?[0-9]+`. */
  predicate IsDecimal(s: string) {
    var digits := Unsigned(s);
    |digits| > 0 && AllDigits(digits)
  }

  /** The integer a decimal literal denotes. */
  function DecimalValue(s: string): int
    requires IsDecimal(s)
  {
    var magnitude: int := Horner(0, Unsigned(s));
    if s[0] == '-' then -magnitude else magnitude
  }

  /**
    strconv.ParseInt(s, 10, 64): succeeds exactly on decimal literals whose value fits in an
    int64; a decimal literal that does not fit is a range error.
   */
  function ParseInt(s: string): (r: Result<Int64, NumError>)
    ensures r.Ok? <==> IsDecimal(s) && InInt64Range(DecimalValue(s))
    ensures r.Ok? ==> r.value == DecimalValue(s)
    ensures IsDecimal(s) && !InInt64Range(DecimalValue(s)) ==> r == Err(ErrRange)
  {
    if s == "" then Err(ErrSyntax)
    else
      var neg := s[0] == '-';
      var parsed := ParseUint(Unsigned(s));
      if parsed == Err(ErrSyntax) then Err(ErrSyntax)
      else
        // On a range error ParseUint reports its maximum, which both sign checks reject.
        var un := if parsed.Ok? then parsed.value else MAX_UINT64;
        if !neg && un >= TWO_63 then Err(ErrRange)
        else if neg && un > TWO_63 then Err(ErrRange)
        else if neg then Ok(-un) else Ok(un)
  }

  /** The decimal digits of `n` with no leading zero (strconv.FormatUint(n, 10)). */
  function FormatUnsigned(n: nat): (r: string)
    ensures |r| > 0 && AllDigits(r)
    ensures Horner(0, r) == n
    ensures r[0] == '0' ==> r == "0"
  {
    if n < 10 then [DigitChar(n)]
    else
      var prefix := FormatUnsigned(n / 10);
      var last := DigitChar(n % 10);
      HornerSnoc(0, prefix, last);
      prefix + [last]
  }

  /** strconv.FormatInt(d, 10): a decimal literal for `d`, with a minus sign only when `d` is negative. */
  function FormatInt(d: Int64): (r: string)
    ensures IsDecimal(r) && DecimalValue(r) == d
    ensures r[0] != '+'
    ensures r[0] == '-' <==> d < 0
  {
    if d < 0 then "-" + FormatUnsigned(-(d as int)) else FormatUnsigned(d)
  }

  /** Rendering an int64 in decimal and parsing it back yields the same int64. */
  lemma FormatParseRoundTrip(d: Int64)
    ensures ParseInt(FormatInt(d)) == Ok(d)
  {
  }

  /** Every decimal text of the two canonical forms is the rendering of the value it parses to. */
  lemma {:induction false} ParseFormatCanonical(s: string)
    requires ParseInt(s).Ok?
    requires s[0] != '+'
    requires Unsigned(s)[0] == '0' ==> Unsigned(s) == "0" && s[0] != '-'
    ensures FormatInt(ParseInt(s).value) == s
  {
    var digits := Unsigned(s);
    CanonicalDigits(digits);
    if s[0] == '-' {
      assert s == "-" + digits;
    }
  }

  /** A digit string without a leading zero is the rendering of its own value. */
  lemma {:induction false} CanonicalDigits(s: string)
    requires |s| > 0 && AllDigits(s)
    requires s[0] == '0' ==> s == "0"
    ensures FormatUnsigned(Horner(0, s)) == s
  {
    if |s| == 1 {
      assert s == [s[0]];
    } else {
      var prefix := s[..|s| - 1];
      var last := s[|s| - 1];
      assert s == prefix + [last];
      assert AllDigits(prefix);
      HornerSnoc(0, prefix, last);
      assert prefix[0] == s[0];
      CanonicalDigits(prefix);
      LeadingDigitPositive(prefix);
    }
  }

  /** A digit string of two or more digits that starts with a non-zero digit is at least 1. */
  lemma {:induction false} LeadingDigitPositive(s: string)
    requires |s| > 0 && AllDigits(s) && s[0] != '0'
    ensures Horner(0, s) >= 1
  {
    assert Horner(0, s) == Horner(DigitValue(s[0]), s[1..]);
  }

  /** The service's own example: "63.243" is not an integer literal. */
  lemma ParseIntRejectsFraction()
    ensures ParseInt("63.243") == Err(ErrSyntax)
  {
    assert Unsigned("63.243") == "63.243";
    assert "63.243"[1..] == "3.243";
    assert "3.243"[1..] == ".243";
    assert ScanUint(63, ".243") == Err(ErrSyntax);
    assert ScanUint(6, "3.243") == Err(ErrSyntax);
    assert ScanUint(0, "63.243") == Err(ErrSyntax);
  }
}

=== FILE: wrappers.dfy ===
/** Failure-carrying values shared by the rest of the model. */
module Wrappers {

  /** A value that may be absent: Go's nil pointer, or a `(value, ok)` pair's `ok == false`. */
  datatype Option<+T> = None | Some(value: T) {

    /** The held value, falling back to `fallback` for None. */
    function GetOr(fallback: T): T {
      if Some? then value else fallback
    }
  }

  /** A value or an error, in place of Go's `(value, err)` results. */
  datatype Result<+T, +E> = Ok(value: T) | Err(error: E)

  /** The outcome of Go code that either returns or panics (a nil-pointer dereference, here). */
  datatype Go<+T> = Returns(value: T) | Panics
}
